=== FILE: README.md ===
# ssgui terminal core, modelled in Dafny

ssgui is a PyQt SSH client (`ssgui.py`). Under its widgets sits a small
sequential core, which this project models as pure functions over immutable
datatypes and proves properties of:

- **Backspace normalisation** (`process_backspaces`): the raw output is
  scanned as a stack; a backspace (U+0008) or delete (U+007F) pops the last
  output character, or does nothing on empty output, and every other
  character is pushed. Module `Backspace`.
- **Terminal tab state** (`SSHInteractiveClient`): the raw
  `terminal_buffer`, the cursor flag, the connection flags, the text the
  view shows and a log of the byte strings written to the shell.
  `append_output`, `toggle_cursor`, `handle_clear`, key presses, right-click
  paste, disconnecting and the receive hand-off are transitions of it.
  Module `Terminal`.
- **Key translation** (`eventFilter`): a prioritised table from Qt key
  events to bytes, using Qt's real key codes and the Control modifier flag.
  Module `Keys`, with UTF-8 encoding of sent text in module `Utf8`.
- **Saved servers** (`save_server_entry`, `on_server_selected`): a
  most-recent-first list of at most ten entries, de-duplicated by host, user
  and `str(port)`. Module `Profiles`.
- **Connection form** (`connect_ssh`): stripping, the required fields, the
  port defaulting to 22 and `int()` parsing, and the effect of the attempt
  on the tab and on the saved list. Modules `Connect` and `Decimal`
  (Python's `str(int)` and `int(str)`).

Foreign collaborators are parameters: Fernet encryption is the
`ciphertext` argument, Fernet decryption is a `decrypt` function argument
(`None` when it raises), the SSH library's verdict is an `Outcome`, a
failing `shell.send` is a `Link` carrying the error text, and the clipboard
and the view's selection are arguments of the key handler.

Consequences of the code that a reader might not expect, each stated by a
lemma:

- Appending "ab" and then DEL followed by " c" shows "a c": the delete
  removes only the "b" (`Backspace.CrossChunkExample`).
- No range check is applied to the port; any integer `int()` accepts is
  used (`Connect.ReadForm`).
- Ports are compared as `str(port)` text, so a hand-edited entry with port
  "022" survives saving port 22 (`Profiles.PortComparedAsText`).
- A clear empties the view completely. The cursor glyph only reappears at
  the next blink that turns the cursor on, or at the next output while it
  is on (`Terminal.HandleClear`).

## Model

| member | source | states |
|---|---|---|
| Backspace.Normalize | ssgui.py:420-428 | the normalised text never contains a backspace or delete and is never longer than the input |
| Backspace.ProcessBackspaces | ssgui.py:420-428 | the stack loop computes exactly the normal form, hence text free of erasing characters and no longer than the input |
| Backspace.PopOrPush | ssgui.py:422-427 | one more backspace or delete removes exactly the last character of the previous result, or is a no-op on an empty result; any other character is appended to it |
| Backspace.TypeThenErase | ssgui.py:422-427 | typing a character and then erasing it restores the previous result |
| Backspace.CleanIsFixed | ssgui.py:420-428 | text with no erasing character is its own normal form |
| Backspace.Idempotent | ssgui.py:420-428 | normalising twice equals normalising once |
| Backspace.Compose | ssgui.py:430-432 | normalising the whole buffer equals normalising the earlier part and then feeding the new chunk, so erasing reaches across chunks |
| Backspace.HelloExample | ssgui.py:420-428 | "hello" followed by two deletes normalises to "hel" |
| Backspace.CrossChunkExample | ssgui.py:430-432 | "ab" then a chunk of delete and " c" normalises to "a c" |
| Decimal.Digits | ssgui.py:398 | the numeral of a natural number is non-empty digits with no leading zero, whose value is the number |
| Decimal.IntToString | ssgui.py:398 | `str(n)` starts with a digit exactly for n >= 0 and with a minus sign exactly for n < 0 |
| Decimal.ParseUnsigned | ssgui.py:356 | an unsigned numeral reads exactly when it is digits with single underscores between digits, and `str` prints the value read as the numeral's digits without underscores and leading zeros |
| Decimal.ParseInt | ssgui.py:356 | `int(t)` succeeds exactly on an optionally signed well-formed numeral; the value is negative only after a minus sign and never positive after one, and `str` prints its magnitude as the digits after the sign without underscores and leading zeros |
| Decimal.DigitsCanonical | ssgui.py:356 | any run of ASCII digits is, after its leading zeros, exactly what `str` prints for its value |
| Decimal.DropUnderscoresAppend | ssgui.py:356 | removing underscores distributes over concatenation, so it acts character by character |
| Decimal.DropUnderscoresCount | ssgui.py:356 | removing underscores keeps every other character exactly as often as it occurs |
| Decimal.ParseDigits | ssgui.py:356 | plain digits read as their decimal value |
| Decimal.RoundTrip | ssgui.py:356 | reading back `str(n)` yields n |
| Decimal.StringInjective | ssgui.py:398 | two ports print alike exactly when they are equal |
| Decimal.LeadingZeroExample | ssgui.py:356 | "022" reads as 22 but differs from `str(22)` |
| Decimal.PlusSignExample | ssgui.py:356 | "+22" reads as 22 |
| Decimal.MinusUnderscoreExample | ssgui.py:356 | "-0_5" reads as -5 |
| Decimal.GroupedThousandsExample | ssgui.py:356 | "1_000" reads as 1000 |
| Utf8.EncodeChar | ssgui.py:470 | a character encodes to one to four bytes, one byte with its own code exactly when it is ASCII |
| Utf8.Encode | ssgui.py:470 | encoded text has between one and four bytes per character |
| Utf8.DecodeFirst | ssgui.py:470 | strict decoding of one character consumes between one byte and the whole input |
| Utf8.Decode | ssgui.py:470 | strict decoding yields at most one character per byte |
| Utf8.DecodeEncodeChar | ssgui.py:470 | decoding a character's encoding, whatever follows it, yields that character and its length |
| Utf8.DecodeEncode | ssgui.py:470 | decoding the encoding of any text yields the text back, so the bytes handed to the shell determine the text |
| Utf8.EncodeAppend | ssgui.py:470 | encoding distributes over concatenation |
| Utf8.EncodeEmpty | ssgui.py:469-470 | text encodes to no bytes exactly when it is empty |
| Keys.Dispatch | ssgui.py:453-486 | when not live nothing is done; Return or Enter sends CR, Backspace DEL, Tab TAB; Ctrl+V sends the clipboard text iff it exists and is non-empty; Ctrl+C with no selection sends 0x03, and with a non-empty selection copies it when a clipboard exists and does nothing when none does; other keys 32..126 send their text; every other key does nothing |
| Keys.SentBytesAreFromTheTable | ssgui.py:458-481 | whatever a live key press sends is CR, DEL, TAB, 0x03, or decodes to the clipboard text or to the key's text |
| Keys.PrintableAsciiSendsOneByte | ssgui.py:480-481 | a printable ASCII key whose text is its character sends that single byte |
| Keys.NamedKeysIgnoreModifiers | ssgui.py:459-464 | Return, Enter, Backspace and Tab send their one byte whatever modifiers are held |
| Terminal.Initial | ssgui.py:279-286 | a new tab has an empty buffer, sent nothing and is not live |
| Terminal.AppendOutput | ssgui.py:430-439 | the raw buffer grows by exactly the data, nothing else changes but the view, and the view is the normalised buffer plus the glyph iff visible, equal to feeding the chunk to the previously normalised text |
| Terminal.ToggleCursor | ssgui.py:441-451 | the cursor flag flips, the buffer and connection are untouched, and the view is the normalised buffer plus the glyph iff the new flag is set |
| Terminal.HandleClear | ssgui.py:530-534 | buffer and view become empty and exactly one CR is sent iff a shell exists and the session is connected, otherwise nothing |
| Terminal.Transmit | ssgui.py:483-484 | a working write appends the bytes to the log and changes nothing else; a failing one sends nothing, appends the diagnostic and the error text to the buffer and redraws the view from the whole buffer; the connection and cursor flags never change, so a failed send does not end the session |
| Terminal.PressKey | ssgui.py:453-486 | a key press in a non-live session changes nothing; the connection and cursor flags never change; a dispatched send that works logs exactly its bytes and changes nothing else; one that fails sends nothing, appends the key diagnostic and the error text to the buffer and redraws the view from it, leaving the session open |
| Terminal.RightClickPaste | ssgui.py:489-501 | the connection and cursor flags never change; over the view and live, non-empty clipboard text is logged as its UTF-8 bytes with nothing else changed, or, when the send fails, nothing is sent, the paste diagnostic and the error text are appended to the buffer and the view is redrawn from it, leaving the session open; otherwise nothing changes |
| Terminal.Disconnect | ssgui.py:515-521 | after going back the session is not live and buffer, view and log are unchanged |
| Terminal.Receive | ssgui.py:407-418 | handing chunks over never writes to the shell nor changes the flags |
| Terminal.ReceiveIsConcatenation | ssgui.py:407-432 | receiving chunks in order leaves the buffer extended by their concatenation, and, when that concatenation is not empty, the view is derived from the new buffer |
| Terminal.ToggleTwice | ssgui.py:441-449 | toggling twice restores the cursor flag, and the whole state when the view was derived |
| Terminal.ClearForgetsHistory | ssgui.py:530-532 | after a clear the view depends on the new output only |
| Terminal.DisconnectedSendsNothing | ssgui.py:453-486 | after disconnecting, key presses, pastes and clears send nothing |
| Terminal.HelloScenario | ssgui.py:430-437 | receiving "hello" and two deletes on a new tab shows "hel" and the cursor glyph |
| Terminal.EnterSendsCarriageReturn | ssgui.py:459-460 | Return in a live session sends exactly one CR |
| Profiles.Without | ssgui.py:398 | every entry the filter keeps has another key and comes from the list, and every entry of the list with another key is kept |
| Profiles.WithoutCount | ssgui.py:398 | the filter keeps each entry with another key exactly as many times as it occurs, repeats included, and drops every entry with the given key |
| Profiles.Upsert | ssgui.py:397-401 | the new entry is first, no other entry shares its key, every other entry came from the old list, the length is the number of other-key entries plus one capped at ten, and no other-key entry is evicted unless more than nine exist |
| Profiles.SaveServerEntry | ssgui.py:387-401 | the front entry has the given host, user and port and holds the ciphertext iff remembering was asked with a non-empty password; no other entry matches host, user and `str(port)` |
| Profiles.OnServerSelected | ssgui.py:217-240 | row idx shows servers[idx-1] only for 0 < idx <= length, with the password and the remember box set iff a stored password decrypts; any other row blanks the form |
| Profiles.UpsertKeepsOrder | ssgui.py:398-401 | the surviving other entries keep their relative order |
| Profiles.UpsertKeepsFirstOthers | ssgui.py:398-401 | the entries behind the new one are exactly the first entries of the old list with another key, in their old order |
| Profiles.UpsertIdempotent | ssgui.py:397-401 | saving the same entry twice equals saving it once |
| Profiles.UpsertKeepsDistinct | ssgui.py:397-401 | a list without duplicate keys keeps having none |
| Profiles.UpsertFresh | ssgui.py:399-401 | saving a new key pushes it in front and evicts only beyond ten |
| Profiles.UpsertAll | ssgui.py:399-401 | after a series of saves the last saved entry is first and at most ten remain |
| Profiles.DistinctSavesKeepMostRecent | ssgui.py:397-401 | saving distinct servers into an empty list keeps the ten most recent, newest first |
| Profiles.TwelveSaves | ssgui.py:397-401 | twelve distinct saves leave exactly the last ten, newest at index 0 |
| Profiles.PortComparedAsText | ssgui.py:398 | an entry whose port text is "22" is replaced by saving port 22, one with "022" is kept |
| Profiles.SaveThenSelect | ssgui.py:218-228 | selecting row 1 after saving shows the saved host and user, a port text reading back as the port, and the password iff it was remembered |
| Connect.Strip | ssgui.py:347-350 | the stripped text has no whitespace at either end and is an infix of the input with only whitespace before and after it; trimmed text is left alone |
| Connect.StripUnique | ssgui.py:347-350 | any trimmed infix with only whitespace around it equals the stripped text, so the contract of strip determines its result |
| Connect.ReadForm | ssgui.py:346-359 | the form fails for a missing field exactly when host or user is empty after stripping or the password is empty as typed; an empty port means 22, otherwise the port is what `int()` reads, and unreadable text is an error |
| Connect.Attempt | ssgui.py:360-376 | the view shows the progress and outcome lines, buffer and sent bytes are untouched, and only success makes the session live and saves the server; a failure leaves the flags and the saved list as they were |
| Connect.ConnectSsh | ssgui.py:346-376 | buffer and sent bytes never change; an unreadable form changes neither the tab nor the saved list; the tab becomes live only through a readable form and a successful connection, which alone changes the saved list, putting in front an entry with the stripped host and user, the port read from the form (22 when empty) and the ciphertext iff remembering was asked; a readable form shows the progress and outcome lines |
| Connect.KeysFlowOnlyAfterConnecting | ssgui.py:365-367 | on a new tab, Return sends one carriage return after a successful connection and nothing after a failed one |
| Connect.EmptyPortDefaults | ssgui.py:356 | a filled form with an empty port asks for port 22 |
| Connect.SavedServerReconnects | ssgui.py:217-228 | selecting a just-saved remembered server fills a form that asks for exactly the same connection |

## Left out

- PyQt widgets, stylesheets, layouts, tabs, dialogs and the icon download: presentation and network I/O with no logic beyond what is modelled.
- The paramiko connection, `invoke_shell`, `client.close()` and the receive thread's polling and sleeping: network I/O and concurrency. The SSH verdict is an `Outcome` parameter, and the thread is modelled only as the ordered sequence of chunks it hands over (`Terminal.Receive`); its own error line and the decoding of received bytes with `errors='ignore'` are not modelled.
- Fernet key generation, loading, encryption and decryption: a foreign cryptographic library. The ciphertext is an opaque parameter and decryption a function parameter.
- Reading and writing `servers.json` and the handlers that swallow every exception around it: file I/O. Only the in-memory list transformation is modelled, and stored entries are assumed to carry host, user and port.
- Profiles.PortValue: JSON port values other than integers and strings (floats, booleans, null) are not modelled.
- Decimal.ParseInt: only ASCII digits are modelled; Python's `int()` also accepts other Unicode decimal digits.
- Decimal.ParseInt: the 4300-digit limit that CPython 3.11 and later apply to `int()` of decimal text is not modelled, since the interpreter version is not fixed; a longer numeral reads as its value here instead of raising `ValueError`.
- Decimal.IntToString: likewise, the same limit on `str()` of an integer with more than 4300 digits is not modelled.
- Terminal.Transmit: a write is either complete or raises. A partial write is modelled as a whole one: the shell channel's `send` may accept fewer bytes than given (at most one packet, bounded by the remote window), and the program ignores the count it returns, so a long paste can be cut short without any error.
- Terminal.HandleClear: assumes the carriage-return write succeeds; the source does not catch an exception there.
- Keys.Dispatch: the selection is modelled as its text, with "has a selection" meaning non-empty text; Qt's replacement of line breaks by paragraph separators in the selected text is not modelled.
- The server list labels (`user@host:port`) and `set_mode`: presentation only.

=== FILE: backspace.dfy ===
/**
 * Backspace normalisation of terminal output (`process_backspaces`).
 *
 * The raw text is scanned left to right while a stack of output characters
 * is kept: a backspace (U+0008) or a delete (U+007F) pops the last output
 * character, or does nothing when the output is empty; any other character
 * is pushed.
 */
module Backspace {

  const BS: char := '\U{8}'
  const DEL: char := '\U{7F}'

  /** The characters that erase instead of printing. */
  predicate IsErase(c: char) {
    c == BS || c == DEL
  }

  /** Text with no erasing character left in it. */
  predicate Clean(s: string) {
    forall i :: 0 <= i < |s| ==> !IsErase(s[i])
  }

  /** The effect of one input character on the output stack. */
  function Step(out: string, c: char): string {
    if IsErase(c) then
      if |out| == 0 then out else out[..|out| - 1]
    else
      out + [c]
  }

  /**
   * The normalised form of `s`: the stack left after feeding every character
   * of `s`, in order, to `Step`. It never grows the text and never contains
   * an erasing character.
   */
  function Normalize(s: string): (r: string)
    ensures Clean(r)
    ensures |r| <= |s|
  {
    if |s| == 0 then [] else Step(Normalize(s[..|s| - 1]), s[|s| - 1])
  }

  /** Feeding one more character acts on the previous result only. */
  lemma NormalizeSnoc(s: string, c: char)
    ensures Normalize(s + [c]) == Step(Normalize(s), c)
  {
    assert (s + [c])[..|s|] == s;
  }

  /** The result for one more character of the same text. */
  lemma PrefixStep(text: string, i: nat)
    requires i < |text|
    ensures Normalize(text[..i + 1]) == Step(Normalize(text[..i]), text[i])
  {
    NormalizeSnoc(text[..i], text[i]);
    assert text[..i + 1] == text[..i] + [text[i]];
  }

  /**
   * One more input character: an erasing one removes exactly the last
   * character of the previous result, or is a no-op when that result is
   * empty; any other character is appended to it.
   */
  lemma PopOrPush(s: string, c: char)
    ensures IsErase(c) && |Normalize(s)| > 0 ==>
      Normalize(s + [c]) == Normalize(s)[..|Normalize(s)| - 1]
    ensures IsErase(c) && |Normalize(s)| == 0 ==> Normalize(s + [c]) == Normalize(s)
    ensures !IsErase(c) ==> Normalize(s + [c]) == Normalize(s) + [c]
  {
    NormalizeSnoc(s, c);
  }

  /** Typing a printable character and then erasing it leaves no trace. */
  lemma TypeThenErase(s: string, c: char, e: char)
    requires !IsErase(c) && IsErase(e)
    ensures Normalize(s + [c] + [e]) == Normalize(s)
  {
    PopOrPush(s + [c], e);
    PopOrPush(s, c);
    assert (Normalize(s) + [c])[..|Normalize(s)|] == Normalize(s);
  }

  /** Text without erasing characters is its own normal form. */
  lemma {:induction false} CleanIsFixed(s: string)
    requires Clean(s)
    ensures Normalize(s) == s
  {
    if |s| > 0 {
      var p := s[..|s| - 1];
      assert Clean(p) by {
        forall i | 0 <= i < |p| ensures !IsErase(p[i]) {
          assert p[i] == s[i];
        }
      }
      CleanIsFixed(p);
      assert p + [s[|s| - 1]] == s;
    }
  }

  /** Normalising twice is the same as normalising once. */
  lemma Idempotent(s: string)
    ensures Normalize(Normalize(s)) == Normalize(s)
  {
    CleanIsFixed(Normalize(s));
  }

  /**
   * Normalisation composes across chunk boundaries: normalising the whole
   * accumulated text equals normalising the earlier part first and then
   * feeding the later chunk. This is why re-normalising the entire buffer
   * after each chunk lets a backspace in a later chunk erase earlier text.
   */
  lemma {:induction false} Compose(a: string, b: string)
    ensures Normalize(a + b) == Normalize(Normalize(a) + b)
  {
    if |b| == 0 {
      assert a + b == a;
      assert Normalize(a) + b == Normalize(a);
      Idempotent(a);
    } else {
      var p := b[..|b| - 1];
      var c := b[|b| - 1];
      assert b == p + [c];
      Compose(a, p);
      assert a + b == (a + p) + [c];
      assert Normalize(a) + b == (Normalize(a) + p) + [c];
      NormalizeSnoc(a + p, c);
      NormalizeSnoc(Normalize(a) + p, c);
    }
  }

  /** Output received as "hello" followed by two deletes shows "hel". */
  lemma HelloExample()
    ensures Normalize("hello" + [DEL, DEL]) == "hel"
  {
    CleanIsFixed("hello");
    assert "hello" + [DEL, DEL] == ("hello" + [DEL]) + [DEL];
    NormalizeSnoc("hello", DEL);
    assert Normalize("hello" + [DEL]) == "hell";
    NormalizeSnoc("hello" + [DEL], DEL);
  }

  /** A delete in a later chunk erases the last character of an earlier one. */
  lemma CrossChunkExample()
    ensures Normalize("ab" + ([DEL] + " c")) == "a c"
  {
    var s1 := "ab" + [DEL];
    var s2 := s1 + [' '];
    assert "ab" + ([DEL] + " c") == s2 + ['c'];
    CleanIsFixed("ab");
    NormalizeSnoc("ab", DEL);
    assert Normalize(s1) == "a";
    NormalizeSnoc(s1, ' ');
    assert Normalize(s2) == "a ";
    NormalizeSnoc(s2, 'c');
  }

  /** The loop of `process_backspaces`, with an explicit output stack. */
  method ProcessBackspaces(text: string) returns (r: string)
    ensures r == Normalize(text)
  {
    r := [];
    var i := 0;
    while i < |text|
      invariant 0 <= i <= |text|
      invariant r == Normalize(text[..i])
    {
      var c := text[i];
      PrefixStep(text, i);
      if IsErase(c) {
        if |r| > 0 {
          r := r[..|r| - 1];
        }
      } else {
        r := r + [c];
      }
      i := i + 1;
    }
    assert text[..i] == text;
  }
}

=== FILE: connect.dfy ===
/**
 * Reading the connection form and the effect of a connection attempt on
 * the terminal tab and on the saved-server list (`connect_ssh`).
 */
module Connect {
  import opened Wrappers
  import opened Decimal
  import opened Profiles
  import Terminal
  import Keys

  const DefaultPort: int := 22

  /** The characters Python's `str.isspace` accepts, which `strip()` removes. */
  predicate IsSpace(c: char) {
    c == ' ' || ('\t' <= c <= '\r') || ('\U{1C}' <= c <= '\U{1F}')
    || c == '\U{85}' || c == '\U{A0}' || c == '\U{1680}'
    || ('\U{2000}' <= c <= '\U{200A}') || c == '\U{2028}' || c == '\U{2029}'
    || c == '\U{202F}' || c == '\U{205F}' || c == '\U{3000}'
  }

  /** Neither end of `s` is whitespace. */
  predicate Trimmed(s: string) {
    |s| == 0 || (!IsSpace(s[0]) && !IsSpace(s[|s| - 1]))
  }

  /** `s` without its leading whitespace. */
  function StripLeft(s: string): (r: string)
    ensures |r| <= |s| && (|r| == 0 || !IsSpace(r[0]))
    ensures r == s[|s| - |r|..]
    ensures forall i :: 0 <= i < |s| - |r| ==> IsSpace(s[i])
  {
    if |s| > 0 && IsSpace(s[0]) then StripLeft(s[1..]) else s
  }

  /** `s` without its trailing whitespace. */
  function StripRight(s: string): (r: string)
    ensures |r| <= |s| && (|r| == 0 || !IsSpace(r[|r| - 1]))
    ensures r == s[..|r|]
    ensures forall i :: |r| <= i < |s| ==> IsSpace(s[i])
  {
    if |s| > 0 && IsSpace(s[|s| - 1]) then StripRight(s[..|s| - 1]) else s
  }

  /** Every character of `s` before index `a` or from index `b` on is whitespace. */
  predicate OnlySpaceOutside(s: string, a: int, b: int)
    requires 0 <= a <= b <= |s|
  {
    (forall i :: 0 <= i < a ==> IsSpace(s[i])) && (forall i :: b <= i < |s| ==> IsSpace(s[i]))
  }

  /**
   * `str.strip()`: a trimmed infix of `s` with nothing but whitespace
   * before and after it (`StripUnique` shows there is only one).
   */
  function Strip(s: string): (r: string)
    ensures Trimmed(r)
    ensures exists a, b :: 0 <= a <= b <= |s| && r == s[a..b] && OnlySpaceOutside(s, a, b)
    ensures Trimmed(s) ==> r == s
  {
    var l := StripLeft(s);
    var r := StripRight(l);
    assert |r| > 0 ==> r[0] == l[0];
    InnerPart(s, l, r, IsSpace);
    r
  }

  /**
   * `r`, a prefix of the suffix `l` of `s`, is an infix of `s`; what `s`
   * has before `l` and `l` has after `r` lies outside it.
   */
  lemma InnerPart<T>(s: seq<T>, l: seq<T>, r: seq<T>, p: T -> bool)
    requires |l| <= |s| && l == s[|s| - |l|..] && |r| <= |l| && r == l[..|r|]
    requires forall i :: 0 <= i < |s| - |l| ==> p(s[i])
    requires forall i :: |r| <= i < |l| ==> p(l[i])
    ensures r == s[|s| - |l|..|s| - |l| + |r|]
    ensures forall i :: 0 <= i < |s| - |l| ==> p(s[i])
    ensures forall i :: |s| - |l| + |r| <= i < |s| ==> p(s[i])
  {
    var a := |s| - |l|;
    forall i | a + |r| <= i < |s|
      ensures p(s[i])
    {
      assert s[i] == l[i - a];
    }
  }

  /** Any trimmed infix with only whitespace around it is what `strip()` returns. */
  lemma {:induction false} StripUnique(s: string, a: int, b: int)
    requires 0 <= a <= b <= |s| && OnlySpaceOutside(s, a, b) && Trimmed(s[a..b])
    ensures Strip(s) == s[a..b]
  {
    var r := Strip(s);
    var a', b' :| 0 <= a' <= b' <= |s| && r == s[a'..b'] && OnlySpaceOutside(s, a', b');
    SameInfix(s, a, b, a', b');
  }

  /** Two trimmed infixes with only whitespace around them coincide. */
  lemma SameInfix(s: string, a: int, b: int, a': int, b': int)
    requires 0 <= a <= b <= |s| && OnlySpaceOutside(s, a, b) && Trimmed(s[a..b])
    requires 0 <= a' <= b' <= |s| && OnlySpaceOutside(s, a', b') && Trimmed(s[a'..b'])
    ensures s[a..b] == s[a'..b']
  {
    if a < b && a' < b' {
      NonBlankEnds(s, a, b);
      NonBlankEnds(s, a', b');
      SameBounds(s, a, b, a', b');
    } else if a < b {
      NonBlankEnds(s, a, b);
      assert false;
    } else if a' < b' {
      NonBlankEnds(s, a', b');
      assert false;
    }
  }

  lemma NonBlankEnds(s: string, a: int, b: int)
    requires 0 <= a < b <= |s| && Trimmed(s[a..b])
    ensures !IsSpace(s[a]) && !IsSpace(s[b - 1])
  {
    assert s[a] == s[a..b][0] && s[b - 1] == s[a..b][b - a - 1];
  }

  lemma SameBounds(s: string, a: int, b: int, a': int, b': int)
    requires 0 <= a < b <= |s| && 0 <= a' < b' <= |s|
    requires OnlySpaceOutside(s, a, b) && OnlySpaceOutside(s, a', b')
    requires !IsSpace(s[a]) && !IsSpace(s[b - 1]) && !IsSpace(s[a']) && !IsSpace(s[b' - 1])
    ensures a == a' && b == b'
  {
  }

  datatype FormError = MissingField | PortNotANumber

  /** What a well-filled form asks for. */
  datatype Request = Request(host: string, user: string, password: string, port: int, remember: bool)

  /**
   * The checks at the start of `connect_ssh`: host and user are stripped,
   * the password is taken as typed; host, user and password must be
   * non-empty; an empty port means 22, otherwise it must read as an integer.
   * No range check is applied to the port.
   */
  function ReadForm(f: Form): (r: Result<Request, FormError>)
    ensures r.Err? && r.error == MissingField <==>
      Strip(f.host) == [] || Strip(f.user) == [] || f.password == []
    ensures r.Ok? ==>
      && r.value.host == Strip(f.host) && r.value.user == Strip(f.user)
      && r.value.password == f.password && r.value.remember == f.remember
      && r.value.host != [] && r.value.user != [] && r.value.password != []
    ensures r.Ok? && Strip(f.port) == [] ==> r.value.port == DefaultPort
    ensures r.Ok? && Strip(f.port) != [] ==> ParseInt(Strip(f.port)) == Some(r.value.port)
    ensures r.Err? && r.error == PortNotANumber ==> ParseInt(Strip(f.port)).None?
  {
    var host := Strip(f.host);
    var user := Strip(f.user);
    var portText := Strip(f.port);
    if host == [] || user == [] || f.password == [] then Err(MissingField)
    else if portText == [] then Ok(Request(host, user, f.password, DefaultPort, f.remember))
    else
      match ParseInt(portText)
      case Some(n) => Ok(Request(host, user, f.password, n, f.remember))
      case None => Err(PortNotANumber)
  }

  /** How opening the session ended, as the SSH library reports it. */
  datatype Outcome = Connected | AuthFailed | SshError(detail: string) | Failed(detail: string)

  /** The status lines the terminal view shows during an attempt. */
  const Connecting: string := "[*] Connexion SSH en cours..."

  function StatusLine(req: Request, outcome: Outcome): string {
    match outcome
    case Connected => "[+] Connecté à " + req.host + ":" + IntToString(req.port)
    case AuthFailed => "[!] Authentification échouée."
    case SshError(d) => "[!] Erreur SSH : " + d
    case Failed(d) => "[!] Connexion échouée : " + d
  }

  /**
   * The attempt proper, once the form has been read: the view shows the
   * progress line and the outcome line; only success makes the session live
   * and saves the server, with `ciphertext` as the encrypted password.
   */
  function Attempt(s: Terminal.Session, stored: seq<Entry>, req: Request, outcome: Outcome, ciphertext: string)
    : (r: (Terminal.Session, seq<Entry>))
    ensures r.0.buffer == s.buffer && r.0.sent == s.sent && r.0.cursorVisible == s.cursorVisible
    ensures r.0.display == Connecting + "\n" + StatusLine(req, outcome)
    ensures outcome.Connected? ==> Terminal.Live(r.0)
    ensures outcome.Connected? ==>
      && 1 <= |r.1|
      && r.1[0] == Entry(req.host, req.user, IntPort(req.port),
                         if req.remember && req.password != [] then Some(ciphertext) else None)
    ensures outcome.Connected? ==>
      r.1 == SaveServerEntry(stored, req.host, req.user, req.port, req.password, req.remember, ciphertext)
    ensures !outcome.Connected? ==>
      r.0.connected == s.connected && r.0.shellOpen == s.shellOpen && r.1 == stored
  {
    var shown := Connecting + "\n" + StatusLine(req, outcome);
    if outcome.Connected? then
      (s.(connected := true, shellOpen := true, display := shown),
       SaveServerEntry(stored, req.host, req.user, req.port, req.password, req.remember, ciphertext))
    else
      (s.(display := shown), stored)
  }

  /**
   * A connection attempt from form `f` on tab `s` with the saved list
   * `stored`. An unreadable form changes nothing (an error box is shown);
   * otherwise the view shows the attempt, and only a successful one makes
   * the tab live and saves the server as it was read from the form.
   */
  function ConnectSsh(s: Terminal.Session, stored: seq<Entry>, f: Form, outcome: Outcome, ciphertext: string)
    : (r: (Terminal.Session, seq<Entry>))
    ensures r.0.buffer == s.buffer && r.0.sent == s.sent && r.0.cursorVisible == s.cursorVisible
    ensures ReadForm(f).Err? ==> r == (s, stored)
    ensures Terminal.Live(r.0) <==> Terminal.Live(s) || (ReadForm(f).Ok? && outcome.Connected?)
    ensures !(ReadForm(f).Ok? && outcome.Connected?) ==> r.1 == stored
    ensures ReadForm(f).Ok? ==> r.0.display == Connecting + "\n" + StatusLine(ReadForm(f).value, outcome)
    ensures ReadForm(f).Ok? && outcome.Connected? ==>
      && 1 <= |r.1| && r.1[0].host == Strip(f.host) && r.1[0].user == Strip(f.user)
      && r.1[0].port == IntPort(if Strip(f.port) == [] then DefaultPort else ParseInt(Strip(f.port)).value)
      && r.1[0].passwordFernet == (if f.remember then Some(ciphertext) else None)
  {
    match ReadForm(f)
    case Err(_) => (s, stored)
    case Ok(req) => Attempt(s, stored, req, outcome, ciphertext)
  }

  /** `str` of an integer has no surrounding whitespace. */
  lemma IntTextTrimmed(n: int)
    ensures Trimmed(IntToString(n))
  {
    var d := Digits(if n < 0 then -n else n);
    assert IsDigit(d[|d| - 1]);
  }

  /** An empty port field means port 22. */
  lemma EmptyPortDefaults(host: string, user: string, password: string, remember: bool)
    requires Trimmed(host) && Trimmed(user) && host != [] && user != [] && password != []
    ensures ReadForm(Form(host, user, [], password, remember)) == Ok(Request(host, user, password, DefaultPort, remember))
  {
  }

  /**
   * Reconnecting from a just-saved, remembered server asks for exactly
   * what the first connection asked for.
   */
  lemma SavedServerReconnects(stored: seq<Entry>, f: Form, ciphertext: string,
                              decrypt: string -> Option<string>)
    requires ReadForm(f).Ok? && f.remember
    requires decrypt(ciphertext) == Some(f.password)
    ensures var req := ReadForm(f).value;
      var saved := SaveServerEntry(stored, req.host, req.user, req.port, req.password, req.remember, ciphertext);
      ReadForm(OnServerSelected(saved, 1, decrypt)) == Ok(req)
  {
    var req := ReadForm(f).value;
    var saved := SaveServerEntry(stored, req.host, req.user, req.port, req.password, req.remember, ciphertext);
    SaveThenSelect(stored, req.host, req.user, req.port, req.password, req.remember, ciphertext, decrypt);
    var g := OnServerSelected(saved, 1, decrypt);
    IntTextTrimmed(req.port);
    RoundTrip(req.port);
    assert g.port == IntToString(req.port);
    ReadTrimmedForm(g, req);
  }

  /** A form whose fields are already trimmed and filled reads as they say. */
  lemma ReadTrimmedForm(g: Form, req: Request)
    requires Trimmed(g.host) && Trimmed(g.user) && Trimmed(g.port)
    requires g.host == req.host != [] && g.user == req.user != []
    requires g.password == req.password != [] && g.remember == req.remember
    requires g.port != [] && ParseInt(g.port) == Some(req.port)
    ensures ReadForm(g) == Ok(req)
  {
  }

  /**
   * Keys typed on a new tab reach the shell only after a successful
   * connection: then Return sends one carriage return; after any failed
   * attempt it sends nothing.
   */
  lemma KeysFlowOnlyAfterConnecting(stored: seq<Entry>, f: Form, outcome: Outcome, ciphertext: string,
                                    m: int, text: string, clipboard: Option<string>, selection: string)
    requires ReadForm(f).Ok?
    ensures var t := ConnectSsh(Terminal.Initial(), stored, f, outcome, ciphertext).0;
      var ev := Keys.KeyEvent(Keys.KeyReturn, m, text);
      Terminal.PressKey(t, ev, clipboard, selection, Terminal.Healthy).sent
        == (if outcome.Connected? then [Keys.CR] else [])
  {
  }
}

=== FILE: decimal.dfy ===
/**
 * Decimal text for integers, as Python's `str(int)` writes it and as
 * Python's `int(str)` reads it back (ASCII digits only).
 */
module Decimal {
  import opened Wrappers

  predicate IsDigit(c: char) {
    '0' <= c <= '9'
  }

  predicate AllDigits(s: string) {
    forall i :: 0 <= i < |s| ==> IsDigit(s[i])
  }

  function DigitChar(d: int): (c: char)
    requires 0 <= d < 10
    ensures IsDigit(c) && c as int - '0' as int == d
  {
    ('0' as int + d) as char
  }

  /** The numeric value of a run of ASCII digits, most significant first. */
  function DigitsValue(s: string): (v: nat)
    requires AllDigits(s)
  {
    if |s| == 0 then 0
    else DigitsValue(s[..|s| - 1]) * 10 + (s[|s| - 1] as int - '0' as int)
  }

  /** The shortest decimal numeral of `n`: no sign, no leading zero. */
  function Digits(n: nat): (s: string)
    ensures |s| > 0 && AllDigits(s)
    ensures DigitsValue(s) == n
    ensures |s| > 1 ==> s[0] != '0'
  {
    if n < 10 then [DigitChar(n)]
    else
      var p := Digits(n / 10);
      var s := p + [DigitChar(n % 10)];
      assert s[..|s| - 1] == p;
      s
  }

  /** Python's `str(n)` for an integer `n`. */
  function IntToString(n: int): (s: string)
    ensures |s| > 0
    ensures n >= 0 <==> IsDigit(s[0])
    ensures n < 0 <==> s[0] == '-'
  {
    if n < 0 then "-" + Digits(-n) else Digits(n)
  }

  /** Digits with single underscores allowed between them, as `int()` accepts. */
  predicate WellFormedDigits(u: string) {
    && |u| > 0
    && IsDigit(u[0]) && IsDigit(u[|u| - 1])
    && (forall i :: 0 <= i < |u| ==> IsDigit(u[i]) || u[i] == '_')
    && (forall i :: 0 <= i < |u| - 1 ==> u[i] == '_' ==> u[i + 1] != '_')
  }

  /** `u` with every underscore removed and the other characters kept in order. */
  function DropUnderscores(u: string): (r: string)
    ensures '_' !in r
    ensures |r| <= |u|
    ensures |u| > 0 && u[0] != '_' ==> |r| > 0 && r[0] == u[0]
    ensures (forall i :: 0 <= i < |u| ==> IsDigit(u[i]) || u[i] == '_') ==> AllDigits(r)
  {
    if |u| == 0 then []
    else if u[0] == '_' then DropUnderscores(u[1..])
    else [u[0]] + DropUnderscores(u[1..])
  }

  /** `s` without its leading zeros, keeping at least one character. */
  function DropLeadingZeros(s: string): (r: string)
    ensures |r| <= |s| && r == s[|s| - |r|..]
    ensures forall i :: 0 <= i < |s| - |r| ==> s[i] == '0'
    ensures |s| > 0 ==> |r| > 0
    ensures |r| > 1 ==> r[0] != '0'
  {
    if |s| > 1 && s[0] == '0' then DropLeadingZeros(s[1..]) else s
  }

  /** The text after an optional leading sign. */
  function WithoutSign(t: string): (u: string)
    ensures |t| > 0 && (t[0] == '-' || t[0] == '+') ==> t == [t[0]] + u
    ensures !(|t| > 0 && (t[0] == '-' || t[0] == '+')) ==> u == t
  {
    if |t| > 0 && (t[0] == '-' || t[0] == '+') then t[1..] else t
  }

  /**
   * An unsigned numeral accepted by `int()`, or `None` when `int()` raises.
   * The value read is the one `str` prints as the numeral's digits without
   * underscores and leading zeros.
   */
  function ParseUnsigned(u: string): (r: Option<nat>)
    ensures r.Some? <==> WellFormedDigits(u)
    ensures r.Some? ==> Digits(r.value) == DropLeadingZeros(DropUnderscores(u))
  {
    if WellFormedDigits(u) then
      DigitsCanonical(DropUnderscores(u));
      Some(DigitsValue(DropUnderscores(u)))
    else None
  }

  /**
   * Python's `int(t)` on text that has already been stripped of surrounding
   * whitespace: an optional sign followed by a well-formed numeral;
   * `None` stands for the `ValueError` `int()` raises otherwise. The value
   * is negative only after a minus sign, never positive after one, and its
   * magnitude prints as the digits without underscores and leading zeros.
   */
  function ParseInt(t: string): (r: Option<int>)
    ensures r.Some? <==> WellFormedDigits(t) || (|t| > 0 && (t[0] == '-' || t[0] == '+') && WellFormedDigits(t[1..]))
    ensures r.Some? && r.value < 0 ==> t[0] == '-'
    ensures r.Some? && t[0] == '-' ==> r.value <= 0
    ensures r.Some? ==>
      Digits(if r.value < 0 then -r.value else r.value) == DropLeadingZeros(DropUnderscores(WithoutSign(t)))
  {
    if |t| > 0 && t[0] == '-' then
      match ParseUnsigned(t[1..])
      case Some(v) => Some(0 - v as int)
      case None => None
    else if |t| > 0 && t[0] == '+' then
      match ParseUnsigned(t[1..])
      case Some(v) => Some(v)
      case None => None
    else
      match ParseUnsigned(t)
      case Some(v) => Some(v)
      case None => None
  }

  /** A leading zero does not change the value of a run of digits. */
  lemma {:induction false} LeadingZeroValue(t: string)
    requires AllDigits(t)
    ensures AllDigits("0" + t) && DigitsValue("0" + t) == DigitsValue(t)
    decreases |t|
  {
    var s := "0" + t;
    if |t| == 0 {
      assert s[..0] == [];
    } else {
      assert s[..|s| - 1] == "0" + t[..|t| - 1];
      LeadingZeroValue(t[..|t| - 1]);
    }
  }

  /** Digits that start with a non-zero digit have a positive value. */
  lemma {:induction false} PositiveValue(s: string)
    requires |s| > 0 && AllDigits(s) && s[0] != '0'
    ensures DigitsValue(s) > 0
    decreases |s|
  {
    if |s| > 1 {
      PositiveValue(s[..|s| - 1]);
    }
  }

  /** Digits without a leading zero are exactly what `str` prints for their value. */
  lemma {:induction false} CanonicalFixed(s: string)
    requires |s| > 0 && AllDigits(s) && (|s| > 1 ==> s[0] != '0')
    ensures Digits(DigitsValue(s)) == s
    decreases |s|
  {
    var n := DigitsValue(s);
    var d := s[|s| - 1] as int - '0' as int;
    if |s| == 1 {
      assert s[..0] == [] && DigitsValue(s[..0]) == 0;
      assert n == d;
      assert Digits(n)[0] as int == s[0] as int;
    } else {
      var init := s[..|s| - 1];
      PositiveValue(init);
      CanonicalFixed(init);
      assert n == DigitsValue(init) * 10 + d;
      assert n / 10 == DigitsValue(init) && n % 10 == d;
      assert Digits(n)[|s| - 1] as int == s[|s| - 1] as int;
      assert s == init + [s[|s| - 1]];
    }
  }

  /**
   * Every run of digits is some zeros followed by what `str` prints for its
   * value.
   */
  lemma {:induction false} DigitsCanonical(s: string)
    requires |s| > 0 && AllDigits(s)
    ensures Digits(DigitsValue(s)) == DropLeadingZeros(s)
    decreases |s|
  {
    if |s| > 1 && s[0] == '0' {
      var t := s[1..];
      assert AllDigits(t);
      DigitsCanonical(t);
      LeadingZeroValue(t);
      assert "0" + t == s;
      assert DigitsValue(s) == DigitsValue(t);
      assert DropLeadingZeros(s) == DropLeadingZeros(t);
    } else {
      CanonicalFixed(s);
    }
  }

  /** Removing underscores commutes with concatenation. */
  lemma {:induction false} DropUnderscoresAppend(a: string, b: string)
    ensures DropUnderscores(a + b) == DropUnderscores(a) + DropUnderscores(b)
  {
    if |a| == 0 {
      assert a + b == b;
    } else {
      assert (a + b)[0] == a[0] && (a + b)[1..] == a[1..] + b;
      DropUnderscoresAppend(a[1..], b);
    }
  }

  /** Removing underscores keeps every other character, as many times as it occurs. */
  lemma {:induction false} DropUnderscoresCount(u: string)
    ensures multiset(DropUnderscores(u)) == multiset(u)['_' := 0]
  {
    if |u| > 0 {
      DropUnderscoresCount(u[1..]);
      assert u == [u[0]] + u[1..];
      assert multiset(u) == multiset{u[0]} + multiset(u[1..]);
    }
  }

  lemma {:induction false} DropNoUnderscore(s: string)
    requires AllDigits(s)
    ensures DropUnderscores(s) == s
  {
    if |s| > 0 {
      DropNoUnderscore(s[1..]);
    }
  }

  /** Plain digits read as their decimal value. */
  lemma ParseDigits(t: string)
    requires |t| > 0 && AllDigits(t)
    ensures ParseInt(t) == Some(DigitsValue(t))
  {
    DropNoUnderscore(t);
  }

  /** Reading back what `str` wrote yields the same integer. */
  lemma RoundTrip(n: int)
    ensures ParseInt(IntToString(n)) == Some(n)
  {
    var m: nat := if n < 0 then -n else n;
    var t := IntToString(n);
    UnsignedRoundTrip(m);
    if n < 0 {
      assert t == "-" + Digits(m) && t[1..] == Digits(m);
    } else {
      assert t == Digits(m) && t[0] != '-' && t[0] != '+';
    }
  }

  /** Reading back what `str` wrote for a natural number yields that number. */
  lemma UnsignedRoundTrip(m: nat)
    ensures ParseUnsigned(Digits(m)) == Some(m)
  {
    var d := Digits(m);
    DropNoUnderscore(d);
    assert WellFormedDigits(d);
  }

  /** Two integers print the same exactly when they are equal. */
  lemma StringInjective(a: int, b: int)
    ensures IntToString(a) == IntToString(b) <==> a == b
  {
    if IntToString(a) == IntToString(b) {
      RoundTrip(a);
      RoundTrip(b);
    }
  }

  /**
   * `int()` accepts a leading zero, but `str` never writes one, so the text
   * "022" reads as 22 while differing from `str(22)`.
   */
  lemma LeadingZeroExample()
    ensures ParseInt("022") == Some(22)
    ensures IntToString(22) != "022"
  {
    ValueOfZeroTwoTwo();
    ParseDigits("022");
  }

  lemma ValueOfZeroTwoTwo()
    ensures AllDigits("022") && DigitsValue("022") == 22
  {
    assert "02"[..1] == "0";
    assert "022"[..2] == "02";
  }

  /** A leading plus sign is accepted and ignored. */
  lemma PlusSignExample()
    ensures ParseInt("+22") == Some(22)
  {
    assert "+22"[1..] == "22";
    assert AllDigits("22");
    DropNoUnderscore("22");
    assert "22"[..1] == "2";
    assert DigitsValue("22") == 22;
  }

  /** A minus sign negates, and a single underscore between digits is skipped. */
  lemma MinusUnderscoreExample()
    ensures ParseInt("-0_5") == Some(-5)
  {
    assert "-0_5"[1..] == "0_5";
    assert WellFormedDigits("0_5");
    assert "0_5"[1..] == "_5";
    assert "_5"[1..] == "5";
    assert DropUnderscores("5") == "5";
    assert DropUnderscores("_5") == "5";
    assert DropUnderscores("0_5") == "05";
    assert "05"[..1] == "0";
    assert DigitsValue("05") == 5;
  }

  /** Underscores grouping thousands are skipped. */
  lemma GroupedThousandsExample()
    ensures ParseInt("1_000") == Some(1000)
  {
    assert WellFormedDigits("1_000");
    assert "1_000"[1..] == "_000";
    assert "_000"[1..] == "000";
    assert AllDigits("000");
    DropNoUnderscore("000");
    assert DropUnderscores("_000") == "000";
    assert DropUnderscores("1_000") == "1000";
    assert "1000"[..3] == "100";
    assert "100"[..2] == "10";
    assert "10"[..1] == "1";
    assert DigitsValue("1000") == 1000;
  }
}

=== FILE: keys.dfy ===
/**
 * Translation of key presses in the terminal view into the bytes sent to
 * the remote shell (`eventFilter`). The rows are tried in a fixed order and
 * the first one that matches decides; a key matching no row sends nothing.
 */
module Keys {
  import opened Wrappers
  import opened Utf8

  // Qt key codes and the Control modifier flag, as Qt defines them.
  const KeyTab: int := 0x0100_0001
  const KeyBackspace: int := 0x0100_0003
  const KeyReturn: int := 0x0100_0004
  const KeyEnter: int := 0x0100_0005
  const KeyC: int := 0x43
  const KeyV: int := 0x56
  const ControlModifier: int := 0x0400_0000

  // The bytes written to the shell for the named keys.
  const CR: Bytes := [13]
  const DelByte: Bytes := [127]
  const TabByte: Bytes := [9]
  const Interrupt: Bytes := [3]

  /** A key press: Qt key code, modifier flags and the text it types. */
  datatype KeyEvent = KeyEvent(key: int, modifiers: int, text: string)

  /** What a key press does: send bytes, copy the selection, or nothing. */
  datatype Action = Send(bytes: Bytes) | Copy(text: string) | Ignore

  predicate IsNewline(ev: KeyEvent) {
    ev.key == KeyReturn || ev.key == KeyEnter
  }

  /** Exactly the Control modifier held (the flags are compared for equality). */
  predicate IsCtrl(ev: KeyEvent, key: int) {
    ev.modifiers == ControlModifier && ev.key == key
  }

  predicate IsPrintableKey(ev: KeyEvent) {
    32 <= ev.key <= 126
  }

  /** Claimed by one of the rows ahead of the printable-key row. */
  predicate IsNamed(ev: KeyEvent) {
    IsNewline(ev) || ev.key == KeyBackspace || ev.key == KeyTab
    || IsCtrl(ev, KeyV) || IsCtrl(ev, KeyC)
  }

  /**
   * The action for key press `ev`. `live` says the shell exists and the
   * session is connected; `clipboard` is the system clipboard's text
   * (`None` when there is no clipboard); `selection` is the selected text
   * of the terminal view, empty when nothing is selected.
   */
  function Dispatch(ev: KeyEvent, live: bool, clipboard: Option<string>, selection: string): (a: Action)
    ensures !live ==> a == Ignore
    ensures live && IsNewline(ev) ==> a == Send(CR)
    ensures live && ev.key == KeyBackspace ==> a == Send(DelByte)
    ensures live && ev.key == KeyTab ==> a == Send(TabByte)
    ensures live && IsCtrl(ev, KeyV) ==>
      (a.Send? <==> clipboard.Some? && clipboard.value != [])
      && (a.Send? ==> a.bytes == Encode(clipboard.value))
      && !a.Copy?
    ensures live && IsCtrl(ev, KeyC) && selection == [] ==> a == Send(Interrupt)
    ensures live && IsCtrl(ev, KeyC) && selection != [] ==>
      a == (if clipboard.Some? then Copy(selection) else Ignore)
    ensures live && !IsNamed(ev) && IsPrintableKey(ev) ==> a == Send(Encode(ev.text))
    ensures !IsNamed(ev) && !IsPrintableKey(ev) ==> a == Ignore
  {
    if !live then Ignore
    else if IsNewline(ev) then Send(CR)
    else if ev.key == KeyBackspace then Send(DelByte)
    else if ev.key == KeyTab then Send(TabByte)
    else if IsCtrl(ev, KeyV) then
      match clipboard
      case Some(text) => if text != [] then Send(Encode(text)) else Ignore
      case None => Ignore
    else if IsCtrl(ev, KeyC) then
      if selection != [] then
        if clipboard.Some? then Copy(selection) else Ignore
      else Send(Interrupt)
    else if IsPrintableKey(ev) then Send(Encode(ev.text))
    else Ignore
  }

  /**
   * Every byte sequence a key press can send is one of the four control
   * codes, the clipboard's text or the key's own text, each encoded as UTF-8.
   */
  lemma SentBytesAreFromTheTable(ev: KeyEvent, clipboard: Option<string>, selection: string)
    ensures var a := Dispatch(ev, true, clipboard, selection);
      a.Send? ==>
        a.bytes in {CR, DelByte, TabByte, Interrupt}
        || (clipboard.Some? && Decode(a.bytes) == Some(clipboard.value))
        || Decode(a.bytes) == Some(ev.text)
  {
    var a := Dispatch(ev, true, clipboard, selection);
    if a.Send? && a.bytes !in {CR, DelByte, TabByte, Interrupt} {
      if IsCtrl(ev, KeyV) {
        DecodeEncode(clipboard.value);
      } else {
        DecodeEncode(ev.text);
      }
    }
  }

  /**
   * A printable ASCII key whose text is its own character sends exactly
   * that one byte.
   */
  lemma PrintableAsciiSendsOneByte(ev: KeyEvent, clipboard: Option<string>, selection: string)
    requires !IsNamed(ev) && IsPrintableKey(ev)
    requires ev.text == [ev.key as char]
    ensures Dispatch(ev, true, clipboard, selection) == Send([ev.key as byte])
  {
    assert Encode(ev.text) == EncodeChar(ev.text[0]) + Encode([]);
  }

  /** The named keys send their code whatever modifiers are held. */
  lemma NamedKeysIgnoreModifiers(ev: KeyEvent, m: int, clipboard: Option<string>, selection: string)
    requires IsNewline(ev) || ev.key == KeyBackspace || ev.key == KeyTab
    ensures Dispatch(ev, true, clipboard, selection)
      == Dispatch(KeyEvent(ev.key, m, ev.text), true, clipboard, selection)
    ensures |Dispatch(ev, true, clipboard, selection).bytes| == 1
  {
  }
}

=== FILE: profiles.dfy ===
/**
 * The saved-server list (`servers.json` held in memory): a most-recent-first
 * list of at most ten entries, de-duplicated by host, user and the printed
 * form of the port.
 */
module Profiles {
  import opened Wrappers
  import opened Decimal

  const MaxServers: nat := 10

  /**
   * A JSON port value: the number this program writes, or text found in a
   * hand-edited file.
   */
  datatype PortValue = IntPort(n: int) | TextPort(text: string)

  /** A saved server; `passwordFernet` is the opaque encrypted password. */
  datatype Entry = Entry(host: string, user: string, port: PortValue, passwordFernet: Option<string>)

  /** The identity of an entry: host, user and `str(port)`. */
  datatype Key = Key(host: string, user: string, port: string)

  /** Python's `str` of a JSON port value. */
  function PortText(p: PortValue): string {
    match p
    case IntPort(n) => IntToString(n)
    case TextPort(t) => t
  }

  function KeyOf(e: Entry): Key {
    Key(e.host, e.user, PortText(e.port))
  }

  /** No two entries share a key. */
  predicate NoDuplicateKeys(servers: seq<Entry>) {
    forall i, j :: 0 <= i < j < |servers| ==> KeyOf(servers[i]) != KeyOf(servers[j])
  }

  /** `a` is `b` with some entries dropped and the rest in their original order. */
  predicate IsSubsequence(a: seq<Entry>, b: seq<Entry>)
    decreases |b|
  {
    if |a| == 0 then true
    else if |b| == 0 then false
    else (a[0] == b[0] && IsSubsequence(a[1..], b[1..])) || IsSubsequence(a, b[1..])
  }

  /** The entries whose key differs from `k`, in their original order. */
  function Without(servers: seq<Entry>, k: Key): (r: seq<Entry>)
    ensures |r| <= |servers|
    ensures forall i :: 0 <= i < |r| ==> KeyOf(r[i]) != k && r[i] in servers
    ensures forall x :: x in servers && KeyOf(x) != k ==> x in r
  {
    if |servers| == 0 then []
    else if KeyOf(servers[0]) == k then Without(servers[1..], k)
    else [servers[0]] + Without(servers[1..], k)
  }

  /**
   * Removes the entries sharing `e`'s key, puts `e` in front and keeps the
   * first `MaxServers` entries.
   */
  function Upsert(servers: seq<Entry>, e: Entry): (r: seq<Entry>)
    ensures 1 <= |r| <= MaxServers && r[0] == e
    ensures |r| == Min(MaxServers, |Without(servers, KeyOf(e))| + 1)
    ensures forall i :: 1 <= i < |r| ==> KeyOf(r[i]) != KeyOf(e) && r[i] in servers
    ensures |Without(servers, KeyOf(e))| < MaxServers ==>
      forall x :: x in servers && KeyOf(x) != KeyOf(e) ==> x in r
  {
    var w := [e] + Without(servers, KeyOf(e));
    var r := if |w| <= MaxServers then w else w[..MaxServers];
    assert forall i :: 1 <= i < |r| ==> r[i] == Without(servers, KeyOf(e))[i - 1];
    r
  }

  /**
   * The list after `save_server_entry`: the new entry records the
   * ciphertext of the password only when remembering was asked for and the
   * password is not empty.
   */
  function SaveServerEntry(servers: seq<Entry>, host: string, user: string, port: int,
                           passwd: string, remember: bool, ciphertext: string): (r: seq<Entry>)
    ensures 1 <= |r| <= MaxServers
    ensures r[0].host == host && r[0].user == user && r[0].port == IntPort(port)
    ensures r[0].passwordFernet.Some? <==> remember && passwd != []
    ensures r[0].passwordFernet.Some? ==> r[0].passwordFernet.value == ciphertext
    ensures forall i :: 1 <= i < |r| ==>
      !(r[i].host == host && r[i].user == user && PortText(r[i].port) == IntToString(port))
  {
    var secret := if remember && passwd != [] then Some(ciphertext) else None;
    Upsert(servers, Entry(host, user, IntPort(port), secret))
  }

  /** The connection form of the dialog. */
  datatype Form = Form(host: string, user: string, port: string, password: string, remember: bool)

  const BlankForm: Form := Form([], [], [], [], false)

  /**
   * `on_server_selected`: row 0 of the list is "new server", row `idx` for
   * `0 < idx <= |servers|` shows `servers[idx - 1]`. `decrypt` stands for the
   * Fernet decryption; `None` is a decryption that raises.
   */
  function OnServerSelected(servers: seq<Entry>, idx: int, decrypt: string -> Option<string>): (f: Form)
    ensures !(0 < idx <= |servers|) ==> f == BlankForm
    ensures 0 < idx <= |servers| ==>
      var s := servers[idx - 1];
      f.host == s.host && f.user == s.user && f.port == PortText(s.port)
      && (f.remember <==> s.passwordFernet.Some? && decrypt(s.passwordFernet.value).Some?)
      && (f.remember ==> decrypt(s.passwordFernet.value) == Some(f.password))
    ensures !f.remember ==> f.password == []
  {
    if 0 < idx <= |servers| then
      var s := servers[idx - 1];
      match s.passwordFernet
      case Some(c) =>
        (match decrypt(c)
         case Some(p) => Form(s.host, s.user, PortText(s.port), p, true)
         case None => Form(s.host, s.user, PortText(s.port), [], false))
      case None => Form(s.host, s.user, PortText(s.port), [], false)
    else BlankForm
  }

  // ----- Properties of the list operations -----

  /** The filter keeps every other-key entry as many times as it occurs and drops all others. */
  lemma {:induction false} WithoutCount(servers: seq<Entry>, k: Key)
    ensures forall x :: multiset(Without(servers, k))[x] == (if KeyOf(x) != k then multiset(servers)[x] else 0)
  {
    if |servers| > 0 {
      WithoutCount(servers[1..], k);
      assert servers == [servers[0]] + servers[1..];
      assert multiset(servers) == multiset{servers[0]} + multiset(servers[1..]);
    }
  }

  lemma {:induction false} WithoutIsSubsequence(servers: seq<Entry>, k: Key)
    ensures IsSubsequence(Without(servers, k), servers)
  {
    if |servers| > 0 {
      WithoutIsSubsequence(servers[1..], k);
      var w := Without(servers, k);
      if KeyOf(servers[0]) != k {
        assert w[1..] == Without(servers[1..], k);
      } else if |w| > 0 {
        assert IsSubsequence(w, servers[1..]);
      }
    }
  }

  lemma {:induction false} PrefixIsSubsequence(a: seq<Entry>, b: seq<Entry>, n: nat)
    requires IsSubsequence(a, b) && n <= |a|
    ensures IsSubsequence(a[..n], b)
    decreases |b|
  {
    if n > 0 {
      if a[0] == b[0] && IsSubsequence(a[1..], b[1..]) {
        PrefixIsSubsequence(a[1..], b[1..], n - 1);
        assert a[..n][1..] == a[1..][..n - 1];
      } else {
        PrefixIsSubsequence(a, b[1..], n);
      }
    }
  }

  /** The entries kept behind the new one appear in their previous relative order. */
  lemma UpsertKeepsOrder(servers: seq<Entry>, e: Entry)
    ensures IsSubsequence(Upsert(servers, e)[1..], servers)
  {
    var w := Without(servers, KeyOf(e));
    var r := Upsert(servers, e);
    WithoutIsSubsequence(servers, KeyOf(e));
    assert r[1..] == w[..|r| - 1];
    PrefixIsSubsequence(w, servers, |r| - 1);
  }

  lemma {:induction false} WithoutAbsentKey(servers: seq<Entry>, k: Key)
    requires forall i :: 0 <= i < |servers| ==> KeyOf(servers[i]) != k
    ensures Without(servers, k) == servers
  {
    if |servers| > 0 {
      WithoutAbsentKey(servers[1..], k);
    }
  }

  /** Saving the same entry again changes nothing. */
  lemma UpsertIdempotent(servers: seq<Entry>, e: Entry)
    ensures Upsert(Upsert(servers, e), e) == Upsert(servers, e)
  {
    var r := Upsert(servers, e);
    WithoutAbsentKey(r[1..], KeyOf(e));
    assert Without(r, KeyOf(e)) == r[1..];
    assert [e] + r[1..] == r;
  }

  lemma DistinctTail(servers: seq<Entry>)
    requires |servers| > 0 && NoDuplicateKeys(servers)
    ensures NoDuplicateKeys(servers[1..])
  {
    var t := servers[1..];
    forall i, j | 0 <= i < j < |t| ensures KeyOf(t[i]) != KeyOf(t[j]) {
      assert t[i] == servers[i + 1] && t[j] == servers[j + 1];
    }
  }

  /** No entry after the first of a duplicate-free list shares its key. */
  lemma HeadKeyUnique(servers: seq<Entry>, x: Entry)
    requires |servers| > 0 && NoDuplicateKeys(servers)
    requires x in servers[1..]
    ensures KeyOf(x) != KeyOf(servers[0])
  {
    var j :| 0 <= j < |servers[1..]| && servers[1..][j] == x;
    assert servers[j + 1] == x;
  }

  lemma DistinctCons(x: Entry, w: seq<Entry>)
    requires NoDuplicateKeys(w)
    requires forall i :: 0 <= i < |w| ==> KeyOf(w[i]) != KeyOf(x)
    ensures NoDuplicateKeys([x] + w)
  {
    var c := [x] + w;
    forall i, j | 0 <= i < j < |c| ensures KeyOf(c[i]) != KeyOf(c[j]) {
      assert c[j] == w[j - 1];
      if i > 0 {
        assert c[i] == w[i - 1];
      }
    }
  }

  lemma {:induction false} WithoutKeepsDistinct(servers: seq<Entry>, k: Key)
    requires NoDuplicateKeys(servers)
    ensures NoDuplicateKeys(Without(servers, k))
  {
    if |servers| > 0 {
      var t := servers[1..];
      DistinctTail(servers);
      WithoutKeepsDistinct(t, k);
      if KeyOf(servers[0]) != k {
        var w := Without(t, k);
        forall i | 0 <= i < |w| ensures KeyOf(w[i]) != KeyOf(servers[0]) {
          HeadKeyUnique(servers, w[i]);
        }
        DistinctCons(servers[0], w);
      }
    }
  }

  /** A list without duplicate keys stays without duplicate keys. */
  lemma UpsertKeepsDistinct(servers: seq<Entry>, e: Entry)
    requires NoDuplicateKeys(servers)
    ensures NoDuplicateKeys(Upsert(servers, e))
  {
    var w := Without(servers, KeyOf(e));
    WithoutKeepsDistinct(servers, KeyOf(e));
    DistinctCons(e, w);
    var r := Upsert(servers, e);
    DistinctPrefix([e] + w, |r|);
    assert r == ([e] + w)[..|r|];
  }

  /** Saves a sequence of entries one after another, first to last. */
  function UpsertAll(servers: seq<Entry>, es: seq<Entry>): (r: seq<Entry>)
    ensures |es| > 0 ==> 1 <= |r| <= MaxServers && r[0] == es[|es| - 1]
  {
    if |es| == 0 then servers else Upsert(UpsertAll(servers, es[..|es| - 1]), es[|es| - 1])
  }

  function Reverse(es: seq<Entry>): (r: seq<Entry>)
    ensures |r| == |es|
    ensures forall i :: 0 <= i < |es| ==> r[i] == es[|es| - 1 - i]
  {
    if |es| == 0 then [] else [es[|es| - 1]] + Reverse(es[..|es| - 1])
  }

  function Min(a: nat, b: nat): nat {
    if a <= b then a else b
  }

  /** Saving an entry whose key is not in the list just pushes it in front. */
  lemma UpsertFresh(servers: seq<Entry>, e: Entry)
    requires forall i :: 0 <= i < |servers| ==> KeyOf(servers[i]) != KeyOf(e)
    ensures Upsert(servers, e) == ([e] + servers)[..Min(MaxServers, |servers| + 1)]
  {
    WithoutAbsentKey(servers, KeyOf(e));
  }

  /**
   * Behind the new entry come the first entries of the old list that have
   * another key, in their old order: eviction only ever drops the oldest.
   */
  lemma UpsertKeepsFirstOthers(servers: seq<Entry>, e: Entry)
    ensures var r := Upsert(servers, e);
      r[1..] == Without(servers, KeyOf(e))[..|r| - 1]
  {
    var w := Without(servers, KeyOf(e));
    var r := Upsert(servers, e);
    assert r == ([e] + w)[..|r|];
  }

  lemma DistinctPrefix(es: seq<Entry>, n: nat)
    requires NoDuplicateKeys(es) && n <= |es|
    ensures NoDuplicateKeys(es[..n])
  {
    var p := es[..n];
    forall i, j | 0 <= i < j < |p| ensures KeyOf(p[i]) != KeyOf(p[j]) {
      assert p[i] == es[i] && p[j] == es[j];
    }
  }

  /** The newest entry in front of the previous ten-most-recent window. */
  lemma ReverseWindow(init: seq<Entry>, e: Entry)
    ensures var prev := Reverse(init)[..Min(MaxServers, |init|)];
      ([e] + prev)[..Min(MaxServers, |prev| + 1)] == Reverse(init + [e])[..Min(MaxServers, |init| + 1)]
  {
    var es := init + [e];
    var prev := Reverse(init)[..Min(MaxServers, |init|)];
    var r := ([e] + prev)[..Min(MaxServers, |prev| + 1)];
    var want := Reverse(es)[..Min(MaxServers, |es|)];
    forall i | 0 <= i < |r| ensures r[i] == want[i] {
      if i > 0 {
        assert r[i] == prev[i - 1] == init[|init| - i] == es[|init| - i];
      }
    }
  }

  /**
   * Saving entries with pairwise distinct keys into an empty list keeps
   * the ten most recent, most recent first.
   */
  lemma {:induction false} DistinctSavesKeepMostRecent(es: seq<Entry>)
    requires NoDuplicateKeys(es)
    ensures UpsertAll([], es) == Reverse(es)[..Min(MaxServers, |es|)]
  {
    if |es| > 0 {
      var init := es[..|es| - 1];
      var e := es[|es| - 1];
      DistinctPrefix(es, |es| - 1);
      DistinctSavesKeepMostRecent(init);
      var prev := Reverse(init)[..Min(MaxServers, |init|)];
      WindowMissesNewKey(es);
      UpsertFresh(prev, e);
      ReverseWindow(init, e);
      assert init + [e] == es;
    }
  }

  /** The newest entry's key is not among the window of the older ones. */
  lemma WindowMissesNewKey(es: seq<Entry>)
    requires |es| > 0 && NoDuplicateKeys(es)
    ensures var init := es[..|es| - 1];
      var prev := Reverse(init)[..Min(MaxServers, |init|)];
      forall i :: 0 <= i < |prev| ==> KeyOf(prev[i]) != KeyOf(es[|es| - 1])
  {
    var init := es[..|es| - 1];
    var prev := Reverse(init)[..Min(MaxServers, |init|)];
    forall i | 0 <= i < |prev| ensures KeyOf(prev[i]) != KeyOf(es[|es| - 1]) {
      assert prev[i] == es[|init| - 1 - i];
    }
  }

  /** Twelve saves of distinct servers leave the last ten, newest first. */
  lemma TwelveSaves(es: seq<Entry>)
    requires |es| == 12 && NoDuplicateKeys(es)
    ensures var r := UpsertAll([], es);
      |r| == 10 && forall i :: 0 <= i < 10 ==> r[i] == es[11 - i]
  {
    DistinctSavesKeepMostRecent(es);
  }

  /**
   * An entry whose port was stored as the text `str(port)` is replaced, but
   * one stored with a leading zero is kept: the comparison is on printed
   * text, not on the number it denotes.
   */
  lemma PortComparedAsText(host: string, user: string, c: Option<string>)
    ensures var old1 := Entry(host, user, TextPort("22"), c);
      var r := SaveServerEntry([old1], host, user, 22, [], false, []);
      |r| == 1
    ensures var old2 := Entry(host, user, TextPort("022"), c);
      var r := SaveServerEntry([old2], host, user, 22, [], false, []);
      |r| == 2 && r[1] == old2
  {
    assert IntToString(22) == "22" by {
      assert Digits(2) == "2";
      assert Digits(22) == Digits(2) + [DigitChar(2)];
    }
  }

  /**
   * Selecting row 1 right after saving shows what was saved: host, user, a
   * port text that reads back as the port, and the password exactly when it
   * was remembered and decrypts.
   */
  lemma SaveThenSelect(servers: seq<Entry>, host: string, user: string, port: int,
                       passwd: string, remember: bool, ciphertext: string,
                       decrypt: string -> Option<string>)
    requires decrypt(ciphertext) == Some(passwd)
    ensures var f := OnServerSelected(SaveServerEntry(servers, host, user, port, passwd, remember, ciphertext), 1, decrypt);
      && f.host == host && f.user == user && ParseInt(f.port) == Some(port)
      && (f.remember <==> remember && passwd != [])
      && (f.remember ==> f.password == passwd)
  {
    RoundTrip(port);
  }
}

=== FILE: terminal.dfy ===
/**
 * The state of one terminal tab (`SSHInteractiveClient`): the raw text
 * received so far, the blinking-cursor flag, the connection flags, the text
 * the view shows, and the log of byte strings written to the shell.
 *
 * The shown text is always re-derived from the whole raw buffer: its
 * backspace-normalised form, followed by the cursor glyph when the cursor
 * is visible.
 */
module Terminal {
  import opened Wrappers
  import opened Utf8
  import opened Backspace
  import Keys

  /** The block glyph drawn as the cursor. */
  const Glyph: char := '\U{2588}'

  // Prefixes of the inline diagnostics written when a send fails.
  const KeyErrorPrefix: string := "\n[!] Erreur touche : "
  const PasteErrorPrefix: string := "\n[!] Erreur coller clic droit : "

  datatype Session = Session(
    buffer: string,       // raw accumulated output (`terminal_buffer`)
    cursorVisible: bool,  // `cursor_visible`
    connected: bool,      // `connected`
    shellOpen: bool,      // a shell channel exists (`self.shell` is set)
    display: string,      // the plain text of the terminal view
    sent: seq<Bytes>      // every byte string written to the shell, in order
  )

  /** Whether writing to the shell is attempted at all. */
  predicate Live(s: Session) {
    s.shellOpen && s.connected
  }

  /** A new tab: empty buffer, visible cursor, not connected. */
  function Initial(): (s: Session)
    ensures !Live(s) && s.buffer == [] && s.sent == []
  {
    Session([], true, false, false, [], [])
  }

  /** The text shown for a raw buffer and a cursor flag. */
  function Render(buffer: string, visible: bool): string {
    Normalize(buffer) + (if visible then [Glyph] else [])
  }

  /** The view shows exactly what the buffer and the cursor flag dictate. */
  predicate ViewDerived(s: Session) {
    s.display == Render(s.buffer, s.cursorVisible)
  }

  /** The outcome of writing to the shell: it works, or raises `detail`. */
  datatype Link = Healthy | Failing(detail: string)

  /**
   * `append_output`: the raw buffer grows by `data` and the view is redrawn.
   * The view equals what feeding only the new chunk to the previously
   * normalised text would show, so erasing reaches across chunks.
   */
  function AppendOutput(s: Session, data: string): (t: Session)
    ensures t.buffer == s.buffer + data
    ensures t.cursorVisible == s.cursorVisible && t.connected == s.connected
    ensures t.shellOpen == s.shellOpen && t.sent == s.sent
    ensures ViewDerived(t)
    ensures t.display == Render(Normalize(s.buffer) + data, s.cursorVisible)
  {
    var b := s.buffer + data;
    Compose(s.buffer, data);
    s.(buffer := b, display := Render(b, s.cursorVisible))
  }

  /**
   * `toggle_cursor`: the cursor flag flips and the view is redrawn from the
   * untouched buffer.
   */
  function ToggleCursor(s: Session): (t: Session)
    ensures t.cursorVisible == !s.cursorVisible
    ensures t.buffer == s.buffer && t.connected == s.connected
    ensures t.shellOpen == s.shellOpen && t.sent == s.sent
    ensures ViewDerived(t)
  {
    var v := !s.cursorVisible;
    s.(cursorVisible := v, display := Render(s.buffer, v))
  }

  /**
   * `handle_clear`: buffer and view are emptied, and a carriage return is
   * sent exactly when the session is live.
   */
  function HandleClear(s: Session): (t: Session)
    ensures t.buffer == [] && t.display == []
    ensures Live(s) ==> t.sent == s.sent + [Keys.CR]
    ensures !Live(s) ==> t.sent == s.sent
    ensures t.cursorVisible == s.cursorVisible && t.connected == s.connected
    ensures t.shellOpen == s.shellOpen
  {
    var t := s.(buffer := [], display := []);
    if Live(s) then t.(sent := s.sent + [Keys.CR]) else t
  }

  /**
   * Writes `bytes` to the shell. A failing write sends nothing and instead
   * reports `prefix` followed by the error text as terminal output.
   */
  function Transmit(s: Session, bytes: Bytes, link: Link, prefix: string): (t: Session)
    ensures link.Healthy? ==> t == s.(sent := s.sent + [bytes])
    ensures link.Failing? ==> t.sent == s.sent && t.buffer == s.buffer + prefix + link.detail
    ensures link.Failing? ==> ViewDerived(t)
    ensures t.connected == s.connected && t.shellOpen == s.shellOpen
    ensures t.cursorVisible == s.cursorVisible
  {
    match link
    case Healthy => s.(sent := s.sent + [bytes])
    case Failing(detail) => AppendOutput(s, prefix + detail)
  }

  /** A key press in the terminal view (`eventFilter`). */
  function PressKey(s: Session, ev: Keys.KeyEvent, clipboard: Option<string>, selection: string, link: Link): (t: Session)
    ensures !Live(s) ==> t == s
    ensures t.connected == s.connected && t.shellOpen == s.shellOpen && t.cursorVisible == s.cursorVisible
    ensures var a := Keys.Dispatch(ev, Live(s), clipboard, selection);
      && (!a.Send? ==> t == s)
      && (a.Send? && link.Healthy? ==> t == s.(sent := s.sent + [a.bytes]))
      && (a.Send? && link.Failing? ==> t.sent == s.sent && t.buffer == s.buffer + KeyErrorPrefix + link.detail)
      && (a.Send? && link.Failing? ==> ViewDerived(t))
  {
    match Keys.Dispatch(ev, Live(s), clipboard, selection)
    case Send(bytes) => Transmit(s, bytes, link, KeyErrorPrefix)
    case Copy(_) => s
    case Ignore => s
  }

  /**
   * A right click over the terminal view (`contextMenuEvent`): when live,
   * non-empty clipboard text is sent as UTF-8; a failing send is reported
   * as terminal output instead.
   */
  function RightClickPaste(s: Session, underMouse: bool, clipboard: Option<string>, link: Link): (t: Session)
    ensures !(underMouse && Live(s)) ==> t == s
    ensures clipboard == None || clipboard == Some([]) ==> t == s
    ensures t.connected == s.connected && t.shellOpen == s.shellOpen && t.cursorVisible == s.cursorVisible
    ensures underMouse && Live(s) && clipboard.Some? && clipboard.value != [] && link.Healthy? ==>
      t == s.(sent := s.sent + [Encode(clipboard.value)])
    ensures underMouse && Live(s) && clipboard.Some? && clipboard.value != [] && link.Failing? ==>
      t.sent == s.sent && t.buffer == s.buffer + PasteErrorPrefix + link.detail
    ensures underMouse && Live(s) && clipboard.Some? && clipboard.value != [] && link.Failing? ==>
      ViewDerived(t)
  {
    if underMouse && Live(s) then
      match clipboard
      case Some(text) => if text != [] then Transmit(s, Encode(text), link, PasteErrorPrefix) else s
      case None => s
    else s
  }

  /**
   * The session is marked disconnected (`handle_back`, `closeEvent`, the
   * tab's close button); closing the transport itself is not modelled.
   */
  function Disconnect(s: Session): (t: Session)
    ensures !Live(t)
    ensures t.buffer == s.buffer && t.display == s.display && t.sent == s.sent
  {
    s.(connected := false)
  }

  /**
   * Output handed over by the receive loop, chunk by chunk in arrival
   * order; only non-empty chunks are emitted.
   */
  function Receive(s: Session, chunks: seq<string>): (t: Session)
    ensures t.sent == s.sent && t.cursorVisible == s.cursorVisible
    ensures t.connected == s.connected && t.shellOpen == s.shellOpen
    decreases |chunks|
  {
    if |chunks| == 0 then s
    else
      var last := chunks[|chunks| - 1];
      var u := Receive(s, chunks[..|chunks| - 1]);
      if last == [] then u else AppendOutput(u, last)
  }

  /** The concatenation of a sequence of chunks. */
  function Concat(chunks: seq<string>): string {
    if |chunks| == 0 then [] else Concat(chunks[..|chunks| - 1]) + chunks[|chunks| - 1]
  }

  /**
   * Receiving chunks one at a time leaves the same buffer as receiving
   * their concatenation at once, and the view shows it.
   */
  lemma {:induction false} ReceiveIsConcatenation(s: Session, chunks: seq<string>)
    ensures Receive(s, chunks).buffer == s.buffer + Concat(chunks)
    ensures Concat(chunks) != [] ==> ViewDerived(Receive(s, chunks))
    decreases |chunks|
  {
    if |chunks| > 0 {
      var init := chunks[..|chunks| - 1];
      ReceiveIsConcatenation(s, init);
      assert s.buffer + Concat(init) + chunks[|chunks| - 1] == s.buffer + (Concat(init) + chunks[|chunks| - 1]);
      if chunks[|chunks| - 1] == [] {
        assert Concat(chunks) == Concat(init);
      }
    }
  }

  /** Toggling twice restores the flag, and the whole state when the view was derived. */
  lemma ToggleTwice(s: Session)
    ensures ToggleCursor(ToggleCursor(s)).cursorVisible == s.cursorVisible
    ensures ViewDerived(s) ==> ToggleCursor(ToggleCursor(s)) == s
  {
  }

  /**
   * After a clear, nothing received earlier can be shown again or be erased:
   * the view depends on the new output alone.
   */
  lemma ClearForgetsHistory(s: Session, data: string)
    ensures AppendOutput(HandleClear(s), data).display == Render(data, s.cursorVisible)
  {
    assert [] + data == data;
  }

  /** Once disconnected, neither key presses, pastes nor clears reach the shell. */
  lemma DisconnectedSendsNothing(s: Session, ev: Keys.KeyEvent, clipboard: Option<string>,
                                 selection: string, link: Link, underMouse: bool)
    ensures PressKey(Disconnect(s), ev, clipboard, selection, link).sent == s.sent
    ensures RightClickPaste(Disconnect(s), underMouse, clipboard, link).sent == s.sent
    ensures HandleClear(Disconnect(s)).sent == s.sent
  {
  }

  /** A new tab receiving "hello" and two deletes shows "hel" and the cursor. */
  lemma HelloScenario()
    ensures AppendOutput(Initial(), "hello" + [DEL, DEL]).display == "hel" + [Glyph]
  {
    var t := AppendOutput(Initial(), "hello" + [DEL, DEL]);
    assert [] + ("hello" + [DEL, DEL]) == "hello" + [DEL, DEL];
    assert t.buffer == "hello" + [DEL, DEL];
    HelloExample();
  }

  /** Enter in a live session sends exactly one carriage return. */
  lemma EnterSendsCarriageReturn(s: Session, m: int, text: string, clipboard: Option<string>, selection: string)
    requires Live(s)
    ensures PressKey(s, Keys.KeyEvent(Keys.KeyReturn, m, text), clipboard, selection, Healthy).sent == s.sent + [[13]]
  {
  }
}

=== FILE: utf8.dfy ===
/**
 * UTF-8, the encoding Python's `str.encode()` uses by default, for the text
 * the client sends down the shell channel.
 */
module Utf8 {
  import opened Wrappers

  newtype byte = x: int | 0 <= x < 256

  type Bytes = seq<byte>

  /** The one to four bytes that encode one Unicode scalar value. */
  function EncodeChar(c: char): (b: Bytes)
    ensures 1 <= |b| <= 4
    ensures c as int < 0x80 <==> |b| == 1
    ensures |b| == 1 ==> b[0] as int == c as int
  {
    var n := c as int;
    if n < 0x80 then
      [n as byte]
    else if n < 0x800 then
      [(0xC0 + n / 64) as byte, (0x80 + n % 64) as byte]
    else if n < 0x10000 then
      [(0xE0 + n / 4096) as byte, (0x80 + (n / 64) % 64) as byte, (0x80 + n % 64) as byte]
    else
      [(0xF0 + (n / 262144) % 8) as byte, (0x80 + (n / 4096) % 64) as byte,
       (0x80 + (n / 64) % 64) as byte, (0x80 + n % 64) as byte]
  }

  /** `s.encode()`: the encodings of the characters, in order. */
  function Encode(s: string): (b: Bytes)
    ensures |s| <= |b| <= 4 * |s|
  {
    if |s| == 0 then [] else EncodeChar(s[0]) + Encode(s[1..])
  }

  predicate IsContinuation(x: byte) {
    0x80 <= x < 0xC0
  }

  /** The scalar value a code point denotes, when it denotes one. */
  function ToChar(n: int): Option<char> {
    if (0 <= n < 0xD800) || (0xE000 <= n < 0x110000) then Some(n as char) else None
  }

  /**
   * Strict decoding of the first character of `b`: the character and how
   * many bytes it took, or `None` for a malformed sequence.
   */
  function DecodeFirst(b: Bytes): (r: Option<(char, nat)>)
    requires |b| > 0
    ensures r.Some? ==> 1 <= r.value.1 <= |b|
  {
    var b0 := b[0] as int;
    if b0 < 0x80 then
      Some((b0 as char, 1))
    else if 0xC0 <= b0 < 0xE0 && |b| >= 2 && IsContinuation(b[1]) then
      var n := (b0 - 0xC0) * 64 + (b[1] as int - 0x80);
      if n < 0x80 then None else Some((n as char, 2))
    else if 0xE0 <= b0 < 0xF0 && |b| >= 3 && IsContinuation(b[1]) && IsContinuation(b[2]) then
      var n := (b0 - 0xE0) * 4096 + (b[1] as int - 0x80) * 64 + (b[2] as int - 0x80);
      if n < 0x800 then None
      else match ToChar(n)
        case Some(c) => Some((c, 3))
        case None => None
    else if 0xF0 <= b0 < 0xF8 && |b| >= 4 && IsContinuation(b[1]) && IsContinuation(b[2]) && IsContinuation(b[3]) then
      var n := (b0 - 0xF0) * 262144 + (b[1] as int - 0x80) * 4096 + (b[2] as int - 0x80) * 64 + (b[3] as int - 0x80);
      if n < 0x10000 then None
      else match ToChar(n)
        case Some(c) => Some((c, 4))
        case None => None
    else
      None
  }

  /** Strict UTF-8 decoding; `None` on any malformed sequence. */
  function Decode(b: Bytes): (r: Option<string>)
    ensures r.Some? ==> |r.value| <= |b|
    decreases |b|
  {
    if |b| == 0 then Some([])
    else match DecodeFirst(b)
      case None => None
      case Some((c, k)) =>
        match Decode(b[k..])
        case None => None
        case Some(rest) => Some([c] + rest)
  }

  /** Each character's encoding decodes back to that character. */
  lemma DecodeEncodeChar(c: char, tail: Bytes)
    ensures DecodeFirst(EncodeChar(c) + tail) == Some((c, |EncodeChar(c)|))
  {
    var n := c as int;
    if n < 0x80 {
    } else if n < 0x800 {
      DecodeTwo(c, tail);
    } else if n < 0x10000 {
      DecodeThree(c, tail);
    } else {
      DecodeFour(c, tail);
    }
  }

  lemma DecodeTwo(c: char, tail: Bytes)
    requires 0x80 <= c as int < 0x800
    ensures DecodeFirst(EncodeChar(c) + tail) == Some((c, 2))
  {
    var n := c as int;
    var b := EncodeChar(c) + tail;
    assert b[0] as int - 0xC0 == n / 64;
    assert b[1] as int - 0x80 == n % 64;
    assert (n / 64) * 64 + n % 64 == n;
  }

  lemma DecodeThree(c: char, tail: Bytes)
    requires 0x800 <= c as int < 0x10000
    ensures DecodeFirst(EncodeChar(c) + tail) == Some((c, 3))
  {
    var n := c as int;
    var b := EncodeChar(c) + tail;
    var q := n / 64;
    assert b[0] as int - 0xE0 == q / 64 by { assert n / 4096 == q / 64; }
    assert b[1] as int - 0x80 == q % 64;
    assert b[2] as int - 0x80 == n % 64;
    assert (q / 64) * 64 + q % 64 == q;
    assert q * 64 + n % 64 == n;
    assert (q / 64) * 4096 + (q % 64) * 64 + n % 64 == n;
  }

  lemma DecodeFour(c: char, tail: Bytes)
    requires 0x10000 <= c as int
    ensures DecodeFirst(EncodeChar(c) + tail) == Some((c, 4))
  {
    var n := c as int;
    assert n < 0x110000;
    var b := EncodeChar(c) + tail;
    var q := n / 64;
    var h := q / 64;
    assert n / 4096 == h;
    assert n / 262144 == h / 64;
    assert h / 64 < 8;
    assert b[0] as int - 0xF0 == h / 64;
    assert b[1] as int - 0x80 == h % 64;
    assert b[2] as int - 0x80 == q % 64;
    assert b[3] as int - 0x80 == n % 64;
    assert (h / 64) * 64 + h % 64 == h;
    assert h * 64 + q % 64 == q;
    assert q * 64 + n % 64 == n;
    assert (h / 64) * 262144 + (h % 64) * 4096 + (q % 64) * 64 + n % 64 == n;
  }

  /** Decoding the encoding of any text gives the text back. */
  lemma {:induction false} DecodeEncode(s: string)
    ensures Decode(Encode(s)) == Some(s)
  {
    if |s| > 0 {
      var e := EncodeChar(s[0]);
      var b := Encode(s);
      assert b == e + Encode(s[1..]);
      DecodeEncodeChar(s[0], Encode(s[1..]));
      assert b[|e|..] == Encode(s[1..]);
      DecodeEncode(s[1..]);
      assert [s[0]] + s[1..] == s;
    }
  }

  /** Encoding distributes over concatenation. */
  lemma {:induction false} EncodeAppend(a: string, b: string)
    ensures Encode(a + b) == Encode(a) + Encode(b)
  {
    if |a| > 0 {
      assert (a + b)[1..] == a[1..] + b;
      EncodeAppend(a[1..], b);
    } else {
      assert a + b == b;
    }
  }

  /** Text is sent as no bytes exactly when it is empty. */
  lemma EncodeEmpty(s: string)
    ensures Encode(s) == [] <==> s == []
  {
  }
}

=== FILE: wrappers.dfy ===
/** Failure-carrying datatypes used by the rest of the model. */
module Wrappers {

  /** A value that may be absent: a Python `None`, a missing dict key. */
  datatype Option<+T> = None | Some(value: T)

  /** The outcome of an operation that either succeeds or reports why it failed. */
  datatype Result<+R, +E> = Ok(value: R) | Err(error: E)
}
